=== FILE: README.md ===
# RandomArt expression-tree engine in Dafny

RandomArt draws a picture by building a random tree of colour operations
and evaluating it once per pixel. This project models the core of
`main.cpp`:

- the closed set of `Operation` classes, with their arities, constants and
  `eval` rules;
- the two selection tables `internalOps` and `leaves`;
- the recursive builder `populate` together with `randOp` and `randLeaf`;
- `setColor`, which places and quantises one pixel in the flat RGB buffer.

Modules, one per concern:

- `Vectors` (`vectors.dfy`): `vec3` as a triple of reals. Its header is not
  part of this model, so `+`, `-`, `*` and scalar `*` are taken to be
  component-wise.
- `Curves` (`curves.dfy`): the scalar curves `tent` and `well`, and `pow`
  for natural exponents.
- `Rng` (`rng.dfy`): the random source as an explicit, endless stream of
  draws. A call of `randInt(k)` or `rand()` consumes one position. What the
  generator promises is stated as two predicates: `IntsInRange` says
  `randInt(k)` lies in [0, k], and `UnitReals` says `rand()` lies in [0, 1).
- `Operations` (`operations.dfy`): the `Variant` of each class and the node
  `Op(variant, constants, inputs)`, mirroring the `inputs` and `constants`
  members of `Operation`. Also the arity invariant `WellFormed`, the
  tables, and the evaluator `Eval`. `fmod`, `hypot` and `vec3::length` are
  not fixed by the model: `Eval` takes them as a `FloatPrims` parameter.
- `Builder` (`builder.dfy`): `Create`, `RandOp`, `RandLeaf`, the choice
  inside `populate`, and `Populate` itself, both as a pure function of the
  stream and as the loop the program writes (`PopulateLoop`). Also the
  ColorMix root that `main` builds with depth 5.
- `EvalLaws` (`eval_laws.dfy`): each operation's `eval` rule for arbitrary
  inputs, together with laws such as commutation, involution and
  independence from input 2.
- `Raster` (`raster.dfy`): `setColor`, with C++ truncating conversion and
  remainder written out.

Quantisation follows the code, `(int) (c * 255) % 255`: the conversion
truncates toward zero and the remainder keeps the sign of a negative value.
The floor-and-modulo reading `floor(c * 255) mod 255` agrees with it on every
non-negative channel, but not on negative ones in general: -0.001 gives 0 in
the code and 254 under that reading (`Raster.QuantizeVersusFloorMod`).

## Model

| member | source | states |
|---|---|---|
| `Curves.WellBase` | main.cpp:274-276 | the base `1 - 2/(1 + v*v)` of `well` always lies in [-1, 1) |
| `Curves.WellDenominator` | main.cpp:275 | the denominator `1 + v*v` is at least 1, so `well` never divides by zero |
| `Curves.TentShape` | main.cpp:297-299 | `tent(v) <= 1`; `tent(v) = 0` exactly when `v` is 0.5 or -0.5; `tent` is even |
| `Curves.PowUnit` | main.cpp:275 | any natural power of a value in [-1, 1] stays in [-1, 1] |
| `Curves.PowStrict` | main.cpp:275 | a positive power of a value strictly inside (-1, 1) stays strictly inside |
| `Curves.PowEven` | main.cpp:275 | `b^(2k) = (b*b)^k`, so even powers such as the eighth are never negative |
| `Curves.WellRange` | main.cpp:274-276 | `well(v)` lies in [0, 1] for every real `v` |
| `Curves.WellPeak` | main.cpp:274-276 | over the reals, `well(0) = 1`, and 0 is the only input at which `well` reaches 1 |
| `Rng.RandInt` | main.cpp:331 | a `randInt(k)` call returns a value in [0, k] when the generator keeps its promise, and consumes exactly one position of the stream |
| `Rng.Rand` | main.cpp:112 | a `rand()` call returns a value in [0, 1) when the generator keeps its promise, and consumes exactly one position |
| `Rng.Rands` | main.cpp:152-155 | `n` successive `rand()` calls return the next `n` draws in call order and consume exactly `n` positions |
| `Operations.TablesSplitByArity` | main.cpp:307-328 | `internalOps` has 10 entries and `leaves` 4; a class is in `internalOps` exactly when its arity is at least 1, and in `leaves` exactly when its arity is 0; neither table repeats a class |
| `Builder.Create` | main.cpp:302-303 | a fresh node has the requested class and no inputs; its constructor stores exactly as many `rand()` draws as the class needs, in draw order |
| `Builder.RandOp` | main.cpp:330-332 | the draw indexes inside `internalOps`, so the node is an internal class with arity at least 1; exactly one `randInt` plus the constructor's draws are consumed |
| `Builder.RandLeaf` | main.cpp:334-336 | the draw indexes inside `leaves`, so the node has arity 0; exactly one `randInt` plus the constructor's draws are consumed |
| `Builder.Choose` | main.cpp:351 | while `maxDepth > 1` the node comes from `internalOps` and has inputs to fill; otherwise it comes from `leaves` and has none |
| `Builder.Attach` | main.cpp:351-353 | a chosen node whose inputs were populated one level down satisfies the arity invariant, and all its root-to-leaf paths have exactly `maxDepth` nodes (one once `maxDepth <= 1`) |
| `Builder.Populate` | main.cpp:345-357 | returns exactly `arity` subtrees; each satisfies the arity invariant throughout, is rooted at an internal class while `maxDepth > 1` and at a childless leaf otherwise, and has every root-to-leaf path of exactly `maxDepth` nodes (one once `maxDepth <= 1`); the stream returned is the input stream advanced by exactly the draws the subtrees account for |
| `Builder.PopulateEmpty` | main.cpp:346-347 | `populate(0, d)` returns no subtrees and consumes no draws |
| `Builder.PopulateLoop` | main.cpp:345-357 | the loop as written returns the same subtrees and the same remaining stream as `Populate` |
| `Builder.PopulateConstantsInUnit` | main.cpp:345-357 | when `rand()` keeps its promise, every constant in the built subtrees lies in [0, 1): Constant values, Circle centres and mask thresholds |
| `Builder.CreateReadsOnlyItsDraws` | main.cpp:152-155 | two streams that agree on a constructor's draw positions give the same node |
| `Builder.ChooseReadsOnlyItsDraws` | main.cpp:330-336 | two streams that agree on the positions a choice consumes choose the same node and stop at the same position |
| `Builder.PopulateReadsOnlyItsDraws` | main.cpp:345-357 | two streams that agree on the positions `populate` consumes build the same subtrees and stop at the same position, so the same seed rebuilds the same tree |
| `Builder.MixRootGrown` | main.cpp:388-389 | for `d >= 1`, a ColorMix root over `populate(3, d)` is grown to depth `d + 1` |
| `Builder.BuildRoot` | main.cpp:388-389 | the program's tree is a ColorMix root that satisfies the arity invariant and has every root-to-leaf path of exactly six nodes; building it consumes exactly the draws its subtrees account for |
| `EvalLaws.SumCommutes` | main.cpp:69-70 | a Sum node's colour is the component-wise sum of its inputs' colours, so swapping its inputs does not change the value |
| `EvalLaws.ProductCommutes` | main.cpp:81-82 | a Product node's colour is the component-wise product of its inputs' colours, so swapping its inputs does not change the value |
| `EvalLaws.ModChannels` | main.cpp:93-98 | a Mod node applies `fmod` per channel with input 0 as dividend and input 1 as divisor, swapping the inputs swaps the operands, and each output channel depends only on that channel of the two inputs |
| `EvalLaws.SumExample` | main.cpp:69-70 | inputs worth (1,1,1) and (2,2,2) sum to (3,3,3) |
| `EvalLaws.InverseLaws` | main.cpp:171-173 | Inverse applied twice gives back its input, and an input plus its Inverse is (1,1,1) |
| `EvalLaws.ColorMixChannels` | main.cpp:208-214 | red comes from input 0, green from input 1 and blue from input 2; mixing one input with itself gives that input |
| `EvalLaws.ColorMixExample` | main.cpp:208-214 | inputs worth pure red, green and blue mix to (1,1,1) |
| `EvalLaws.PerChannelMaskSelects` | main.cpp:186-197 | on each channel, input 1's value when the mask channel is strictly above the threshold and input 2's otherwise |
| `EvalLaws.PerChannelMaskWhole` | main.cpp:186-197 | a mask above the threshold everywhere gives input 1, one at or below it everywhere gives input 2, and equal inputs make the mask irrelevant |
| `EvalLaws.BinaryMaskIsInputOne` | main.cpp:227-235 | BinaryMask evaluates to input 1 whatever the mask, the threshold and input 2 are |
| `EvalLaws.SmoothMixIsInputOne` | main.cpp:246-252 | SmoothMix evaluates to input 1 whatever the weight and input 2 are, since `w*a + (1-w)*a = a` |
| `EvalLaws.TentNode` | main.cpp:287-294 | a Tent node never yields a channel above 1 and sends (0.5,0.5,0.5) to (0,0,0) |
| `EvalLaws.WellNode` | main.cpp:264-271 | a Well node yields channels in [0, 1] and sends (0,0,0) to (1,1,1) |
| `EvalLaws.LeafValues` | main.cpp:115-160 | Constant, VarX, VarY and Circle broadcast their value, `x`, `y` and the distance to the centre to all three channels |
| `Raster.Trunc` | main.cpp:340 | the `(int)` conversion lands within one unit of the value, toward zero |
| `Raster.CRem` | main.cpp:340 | `%` leaves the remainder of the truncated quotient: it has the sign of the dividend and magnitude below the divisor |
| `Raster.Quantize` | main.cpp:340-342 | a non-negative channel quantises into [0, 254], so 255 never appears; a negative one quantises into (-255, 0] |
| `Raster.SetColor` | main.cpp:338-343 | writes the three quantised channels to slots `3*index` to `3*index + 2` and leaves every other slot unchanged |
| `Raster.PixelInBuffer` | main.cpp:339-342 | a pixel with `0 <= x < xRes` and `0 <= y < yRes` has its three slots inside a buffer of `3*xRes*yRes` values |
| `Raster.PixelIndexInjective` | main.cpp:339 | two pixels of one row width share an index exactly when they are the same pixel |
| `Raster.SetColorCommutes` | main.cpp:338-343 | colouring two different pixels gives the same buffer in either order |
| `Raster.QuantizeWraps` | main.cpp:340-342 | 1.0 and 1.003 both quantise to 0, not 255; 0.5 quantises to 127 |
| `Raster.QuantizeOdd` | main.cpp:340-342 | negating a channel negates its quantised value |
| `Raster.QuantizeVersusFloorMod` | main.cpp:340-342 | for non-negative channels quantisation equals `floor(c*255) mod 255`; for -0.001 it gives 0 where that formula gives 254 |

## Left out

- `writePPM` (main.cpp:20-41): file output, the `exit` on failure, and the narrowing of the buffer's doubles to `unsigned char`.
- `main`'s argument handling, clock-based seeding and string hashing (main.cpp:360-374). The Mersenne Twister itself is not part of this model; the abstract draw stream stands in for it.
- `setInputs` and the destructor (main.cpp:48-56): manual ownership and deletion of the input nodes, which an immutable datatype makes unnecessary.
- The pixel loop of `main` (main.cpp:391-399): the floating-point mapping from pixel to domain coordinate around `eval` and `setColor`.
- Floating-point rounding: every `double` is an exact real. `fmod` (Mod, with its NaN for a zero divisor), `hypot` (Circle) and `vec3::length` (BinaryMask, SmoothMix) are left unspecified and passed to `Eval` as parameters.
- `Raster.PixelInBuffer`: the index arithmetic `3 * (x + y*xRes) + 2` is unbounded in the model, while in C++ it is `int` arithmetic that overflows past 2^31 - 1; the program's 1000 by 1000 image needs indices below 3,000,000, which is far under that bound, so the model does not carry an overflow precondition.
- `Raster.PixelIndexInjective`: the same unbounded-index caveat as `Raster.PixelInBuffer`.
- `Raster.Trunc`: the model does not treat a conversion of a value outside the range of `int` as undefined, as C++ does; it truncates any real.
- `Builder.Populate`: `arity` is a natural number. The C++ `int` parameter is never negative in the program, because every call passes a `getArity()` result.
- `Operations.Eval` and `Operations.Arity` carry no contract of their own. What evaluation computes is stated by the lemmas of `EvalLaws`. Which classes take inputs is stated by `Operations.TablesSplitByArity`. Each class's exact arity and constant count are fixed by the `EvalLaws` lemmas, whose nodes must be `WellFormed`.

=== FILE: builder.dfy ===
/** Random tree construction: `randOp`, `randLeaf`, `populate`, and the
    ColorMix root that the program builds with depth 5 (main.cpp). */
module Builder {
  import opened Rng
  import opened Operations

  /** A node fresh from its constructor (or a finished root), and the stream
      after the draws that made it. */
  datatype Made = Made(node: Op, rest: Stream)

  /** The subtrees `populate` returns, and the stream after their draws. */
  datatype Built = Built(ops: seq<Op>, rest: Stream)

  /** Draws consumed while building a sequence of nodes: per node, one
      `randInt` to choose its class, one `rand` per constant, and whatever
      its inputs consumed. */
  function Cost(ops: seq<Op>): nat
    decreases ops
  {
    if ops == [] then 0
    else 1 + |ops[0].constants| + Cost(ops[0].inputs) + Cost(ops[1..])
  }

  /** Every root-to-leaf path starting at `o` has exactly `d` nodes. */
  predicate PathsExactly(o: Op, d: int)
    decreases o
  {
    if o.inputs == [] then d == 1
    else forall i :: 0 <= i < |o.inputs| ==> PathsExactly(o.inputs[i], d - 1)
  }

  /** Every constant stored anywhere in the tree lies in [0, 1). */
  predicate ConstantsInUnit(o: Op)
    decreases o
  {
    && (forall j :: 0 <= j < |o.constants| ==> 0.0 <= o.constants[j] < 1.0)
    && (forall i :: 0 <= i < |o.inputs| ==> ConstantsInUnit(o.inputs[i]))
  }

  /** `Create<T>()`: a fresh node of class `v` without inputs; its
      constructor draws its constants with `rand()`, in order. */
  function Create(v: Variant, s: Stream): (r: Made)
    ensures r.node.variant == v && r.node.inputs == []
    ensures |r.node.constants| == ConstantCount(v)
    ensures forall j :: 0 <= j < |r.node.constants| ==> r.node.constants[j] == s.realDraw(s.next + j)
    ensures r.rest == Skip(s, ConstantCount(v))
  {
    var (cs, s1) := Rands(ConstantCount(v), s);
    Made(Op(v, cs, []), s1)
  }

  /** `randOp()`: one `randInt(numInternal - 1)` picks an entry of
      `internalOps`, whose constructor then runs. */
  function RandOp(s: Stream): (r: Made)
    requires IntsInRange(s)
    ensures r.node.variant == InternalOps[s.intDraw(s.next, |InternalOps| - 1)]
    ensures r.node.variant in InternalOps && Arity(r.node.variant) >= 1
    ensures r.node.inputs == [] && |r.node.constants| == ConstantCount(r.node.variant)
    ensures r.rest == Skip(s, 1 + ConstantCount(r.node.variant))
    ensures UnitReals(s) ==> ConstantsInUnit(r.node)
  {
    var (i, s1) := RandInt(s, |InternalOps| - 1);
    Create(InternalOps[i], s1)
  }

  /** `randLeaf()`: one `randInt(numLeaves - 1)` picks an entry of `leaves`,
      whose constructor then runs. */
  function RandLeaf(s: Stream): (r: Made)
    requires IntsInRange(s)
    ensures r.node.variant == Leaves[s.intDraw(s.next, |Leaves| - 1)]
    ensures r.node.variant in Leaves && Arity(r.node.variant) == 0
    ensures r.node.inputs == [] && |r.node.constants| == ConstantCount(r.node.variant)
    ensures r.rest == Skip(s, 1 + ConstantCount(r.node.variant))
    ensures UnitReals(s) ==> ConstantsInUnit(r.node)
  {
    var (i, s1) := RandInt(s, |Leaves| - 1);
    Create(Leaves[i], s1)
  }

  /** The choice `(maxDepth > 1) ? randOp() : randLeaf()` of `populate`. */
  function Choose(maxDepth: int, s: Stream): (r: Made)
    requires IntsInRange(s)
    ensures maxDepth > 1 ==> r.node.variant in InternalOps && Arity(r.node.variant) >= 1
    ensures maxDepth <= 1 ==> r.node.variant in Leaves && Arity(r.node.variant) == 0
    ensures r.node.inputs == [] && |r.node.constants| == ConstantCount(r.node.variant)
    ensures r.rest == Skip(s, 1 + |r.node.constants|)
    ensures UnitReals(s) ==> ConstantsInUnit(r.node)
  {
    if maxDepth > 1 then RandOp(s) else RandLeaf(s)
  }

  /** What `populate(_, maxDepth)` promises of each subtree it returns: the
      arity invariant holds throughout; the root is an internal operation
      while `maxDepth > 1` and a childless leaf otherwise; and every
      root-to-leaf path has exactly `maxDepth` nodes (one, once
      `maxDepth <= 1`). */
  predicate Grown(o: Op, maxDepth: int) {
    && WellFormed(o)
    && (maxDepth <= 1 ==> o.variant in Leaves && o.inputs == [])
    && (maxDepth > 1 ==> o.variant in InternalOps)
    && PathsExactly(o, if maxDepth > 1 then maxDepth else 1)
  }

  /** A chosen node with populated inputs is grown. */
  lemma Attach(o: Op, children: seq<Op>, maxDepth: int)
    requires maxDepth > 1 ==> o.variant in InternalOps && Arity(o.variant) >= 1
    requires maxDepth <= 1 ==> o.variant in Leaves && Arity(o.variant) == 0
    requires |o.constants| == ConstantCount(o.variant)
    requires |children| == Arity(o.variant)
    requires forall i :: 0 <= i < |children| ==> Grown(children[i], maxDepth - 1)
    ensures Grown(o.(inputs := children), maxDepth)
  {
    var node := o.(inputs := children);
    assert WellFormed(node);
    if maxDepth > 1 {
      assert children != [];
      forall i | 0 <= i < |children|
        ensures PathsExactly(children[i], maxDepth - 1)
      {
        assert Grown(children[i], maxDepth - 1);
      }
    }
  }

  /** Prepending one node adds its own draws and its inputs' to the cost. */
  lemma CostCons(node: Op, rest: seq<Op>)
    ensures Cost([node] + rest) == 1 + |node.constants| + Cost(node.inputs) + Cost(rest)
  {
    assert ([node] + rest)[0] == node && ([node] + rest)[1..] == rest;
  }

  /** Prepending a grown node to grown subtrees keeps them all grown. */
  lemma GrownCons(node: Op, rest: seq<Op>, maxDepth: int)
    requires Grown(node, maxDepth)
    requires forall i :: 0 <= i < |rest| ==> Grown(rest[i], maxDepth)
    ensures forall i :: 0 <= i < 1 + |rest| ==> Grown(([node] + rest)[i], maxDepth)
  {
    forall i | 0 <= i < 1 + |rest|
      ensures Grown(([node] + rest)[i], maxDepth)
    {
      if i > 0 {
        assert ([node] + rest)[i] == rest[i - 1];
      }
    }
  }

  /** `populate(arity, maxDepth)`: `arity` fresh subtrees, built left to right;
      each root is an internal operation while `maxDepth > 1` and a leaf
      otherwise, and its inputs are populated with `maxDepth - 1`. Returns the
      subtrees and the stream after the draws they consumed. */
  function Populate(arity: nat, maxDepth: int, s: Stream): (r: Built)
    requires IntsInRange(s)
    ensures |r.ops| == arity
    ensures forall i :: 0 <= i < arity ==> Grown(r.ops[i], maxDepth)
    ensures r.rest == Skip(s, Cost(r.ops))
    decreases if maxDepth > 0 then maxDepth else 0, arity
  {
    if arity == 0 then Built([], s)
    else
      var c := Choose(maxDepth, s);
      var kids := Populate(Arity(c.node.variant), maxDepth - 1, c.rest);
      var node := c.node.(inputs := kids.ops);
      Attach(c.node, kids.ops, maxDepth);
      var later := Populate(arity - 1, maxDepth, kids.rest);
      GrownCons(node, later.ops, maxDepth);
      CostCons(node, later.ops);
      Built([node] + later.ops, later.rest)
  }

  /** The first subtree `populate` returns is the chosen node with its
      inputs populated one level down; the others are populated from the
      stream that follows. */
  lemma PopulateFirst(arity: nat, maxDepth: int, s: Stream)
    requires IntsInRange(s)
    requires arity > 0
    ensures var c := Choose(maxDepth, s);
      var kids := Populate(Arity(c.node.variant), maxDepth - 1, c.rest);
      var later := Populate(arity - 1, maxDepth, kids.rest);
      Populate(arity, maxDepth, s) == Built([c.node.(inputs := kids.ops)] + later.ops, later.rest)
  {
  }

  /** A fresh node whose constants and inputs lie in [0, 1) throughout,
      prepended to subtrees that do, gives subtrees that all do. */
  lemma InUnitCons(o: Op, children: seq<Op>, rest: seq<Op>)
    requires forall j :: 0 <= j < |o.constants| ==> 0.0 <= o.constants[j] < 1.0
    requires forall i :: 0 <= i < |children| ==> ConstantsInUnit(children[i])
    requires forall i :: 0 <= i < |rest| ==> ConstantsInUnit(rest[i])
    ensures forall i :: 0 <= i < 1 + |rest| ==> ConstantsInUnit(([o.(inputs := children)] + rest)[i])
  {
    var node := o.(inputs := children);
    assert ConstantsInUnit(node);
    forall i | 0 <= i < 1 + |rest|
      ensures ConstantsInUnit(([node] + rest)[i])
    {
      if i > 0 {
        assert ([node] + rest)[i] == rest[i - 1];
      }
    }
  }

  /** Every constant anywhere in the subtrees was drawn with `rand()`, so
      when the generator keeps its promise they all lie in [0, 1): the
      value of each Constant, the centre of each Circle and the threshold of
      each mask. */
  lemma {:induction false} PopulateConstantsInUnit(arity: nat, maxDepth: int, s: Stream)
    requires IntsInRange(s) && UnitReals(s)
    ensures forall i :: 0 <= i < arity ==> ConstantsInUnit(Populate(arity, maxDepth, s).ops[i])
    decreases if maxDepth > 0 then maxDepth else 0, arity
  {
    if arity > 0 {
      var c := Choose(maxDepth, s);
      assert ConstantsInUnit(c.node);
      var kids := Populate(Arity(c.node.variant), maxDepth - 1, c.rest);
      PopulateConstantsInUnit(Arity(c.node.variant), maxDepth - 1, c.rest);
      var later := Populate(arity - 1, maxDepth, kids.rest);
      PopulateConstantsInUnit(arity - 1, maxDepth, kids.rest);
      InUnitCons(c.node, kids.ops, later.ops);
      PopulateFirst(arity, maxDepth, s);
    }
  }

  /** One turn of `populate`'s loop: once the chosen node's inputs are
      populated as `children`, leaving the stream at `s2`, the `n` subtrees
      still to build after `args` are that node followed by the `n - 1`
      subtrees populated from `s2`. */
  lemma PopulateStep(args: seq<Op>, goal: Built, n: nat, maxDepth: int, s: Stream, pick: Made, children: seq<Op>, s2: Stream)
    requires IntsInRange(s)
    requires n > 0
    requires pick == Choose(maxDepth, s)
    requires Built(children, s2) == Populate(Arity(pick.node.variant), maxDepth - 1, pick.rest)
    requires args + Populate(n, maxDepth, s).ops == goal.ops
    requires Populate(n, maxDepth, s).rest == goal.rest
    ensures IntsInRange(s2)
    ensures (args + [pick.node.(inputs := children)]) + Populate(n - 1, maxDepth, s2).ops == goal.ops
    ensures Populate(n - 1, maxDepth, s2).rest == goal.rest
  {
    PopulateUnfold(n, maxDepth, s, pick, children, s2);
    ShiftOne(args, goal, Populate(n, maxDepth, s), pick.node.(inputs := children), Populate(n - 1, maxDepth, s2));
  }

  /** `Populate` of `n > 0` slots, with the first node's inputs already
      known to be `children` ending at `s2`. */
  lemma PopulateUnfold(n: nat, maxDepth: int, s: Stream, pick: Made, children: seq<Op>, s2: Stream)
    requires IntsInRange(s)
    requires n > 0
    requires pick == Choose(maxDepth, s)
    requires Built(children, s2) == Populate(Arity(pick.node.variant), maxDepth - 1, pick.rest)
    ensures IntsInRange(s2)
    ensures Populate(n, maxDepth, s)
         == Built([pick.node.(inputs := children)] + Populate(n - 1, maxDepth, s2).ops, Populate(n - 1, maxDepth, s2).rest)
  {
    PopulateFirst(n, maxDepth, s);
  }

  /** Moving the head of the still-to-build part onto the built prefix
      keeps the concatenation and the final stream. */
  lemma ShiftOne(args: seq<Op>, goal: Built, todo: Built, node: Op, later: Built)
    requires args + todo.ops == goal.ops && todo.rest == goal.rest
    requires todo == Built([node] + later.ops, later.rest)
    ensures (args + [node]) + later.ops == goal.ops && later.rest == goal.rest
  {
    assert args + ([node] + later.ops) == (args + [node]) + later.ops;
  }

  /** `populate` as the program writes it: a loop over the `arity` slots
      that chooses a node, populates its inputs by a recursive call, and
      appends it. It computes exactly what `Populate` defines. */
  method PopulateLoop(arity: nat, maxDepth: int, s: Stream) returns (args: seq<Op>, rest: Stream)
    requires IntsInRange(s)
    ensures Built(args, rest) == Populate(arity, maxDepth, s)
    decreases if maxDepth > 0 then maxDepth else 0, arity
  {
    if arity == 0 {
      PopulateEmpty(maxDepth, s);
      return [], s;
    }
    ghost var goal := Populate(arity, maxDepth, s);
    args := [];
    var cur := s;
    var i := 0;
    while i < arity
      invariant 0 <= i <= arity
      invariant IntsInRange(cur)
      invariant args + Populate(arity - i, maxDepth, cur).ops == goal.ops
      invariant Populate(arity - i, maxDepth, cur).rest == goal.rest
    {
      var pick := Choose(maxDepth, cur);
      var children, s2 := PopulateLoop(Arity(pick.node.variant), maxDepth - 1, pick.rest);
      PopulateStep(args, goal, arity - i, maxDepth, cur, pick, children, s2);
      args := args + [pick.node.(inputs := children)];
      cur := s2;
      i := i + 1;
    }
    PopulateEmpty(maxDepth, cur);
    assert args + [] == args;
    rest := cur;
  }

  /** A ColorMix root over the three subtrees `populate(3, d)` returns is
      grown to depth `d + 1`. */
  lemma MixRootGrown(d: int, s: Stream)
    requires d >= 1
    requires IntsInRange(s)
    ensures Grown(Op(ColorMix, [], Populate(Arity(ColorMix), d, s).ops), d + 1)
  {
    Attach(Op(ColorMix, [], []), Populate(Arity(ColorMix), d, s).ops, d + 1);
  }

  /** `main`'s tree: a ColorMix root (drawing nothing) whose three inputs are
      populated with depth 5. The root and its inputs satisfy the arity
      invariant, and every root-to-leaf path has exactly six nodes. */
  function BuildRoot(s: Stream): (r: Made)
    requires IntsInRange(s)
    ensures r.node.variant == ColorMix
    ensures Grown(r.node, 6)
    ensures r.rest == Skip(s, Cost(r.node.inputs))
  {
    MixRootGrown(5, s);
    var built := Populate(Arity(ColorMix), 5, s);
    Made(Op(ColorMix, [], built.ops), built.rest)
  }

  /** `populate(0, d)` builds nothing and consumes no draws. */
  lemma PopulateEmpty(maxDepth: int, s: Stream)
    requires IntsInRange(s)
    ensures Populate(0, maxDepth, s) == Built([], s)
  {
  }

  /** Two streams that return the same values at positions `lo` to `hi - 1`. */
  ghost predicate Agree(s: Stream, t: Stream, lo: nat, hi: nat) {
    && (forall p: nat, k: nat :: lo <= p < hi ==> s.intDraw(p, k) == t.intDraw(p, k))
    && (forall p: nat :: lo <= p < hi ==> s.realDraw(p) == t.realDraw(p))
  }

  /** Agreement carries over to a narrower window, and to the same streams
      at other positions. */
  lemma AgreeNarrow(s: Stream, t: Stream, lo: nat, hi: nat, s': Stream, t': Stream, lo': nat, hi': nat)
    requires Agree(s, t, lo, hi)
    requires s'.intDraw == s.intDraw && s'.realDraw == s.realDraw
    requires t'.intDraw == t.intDraw && t'.realDraw == t.realDraw
    requires lo <= lo' && hi' <= hi
    ensures Agree(s', t', lo', hi')
  {
  }

  /** A fresh node depends only on the draws its constructor consumes. */
  lemma CreateReadsOnlyItsDraws(v: Variant, s: Stream, t: Stream)
    requires s.next == t.next
    requires Agree(s, t, s.next, s.next + ConstantCount(v))
    ensures Create(v, t).node == Create(v, s).node
  {
    var o := Create(v, s).node;
    var o' := Create(v, t).node;
    forall j | 0 <= j < |o.constants|
      ensures o.constants[j] == o'.constants[j]
    {
      assert o.constants[j] == s.realDraw(s.next + j);
      assert o'.constants[j] == t.realDraw(t.next + j);
    }
    assert o.constants == o'.constants;
  }

  /** The chosen node depends only on the draws the choice consumes: the
      class index, then the constructor's constants. */
  lemma ChooseReadsOnlyItsDraws(maxDepth: int, s: Stream, t: Stream)
    requires IntsInRange(s) && IntsInRange(t)
    requires s.next == t.next
    requires Agree(s, t, s.next, Choose(maxDepth, s).rest.next)
    ensures Choose(maxDepth, t).node == Choose(maxDepth, s).node
    ensures Choose(maxDepth, t).rest.next == Choose(maxDepth, s).rest.next
  {
    var table := if maxDepth > 1 then InternalOps else Leaves;
    var i := s.intDraw(s.next, |table| - 1);
    assert i == t.intDraw(t.next, |table| - 1);
    var v := table[i];
    assert Choose(maxDepth, s).node.variant == v;
    AgreeNarrow(s, t, s.next, s.next + 1 + ConstantCount(v), Skip(s, 1), Skip(t, 1), s.next + 1, s.next + 1 + ConstantCount(v));
    CreateReadsOnlyItsDraws(v, Skip(s, 1), Skip(t, 1));
    if maxDepth > 1 {
      assert Choose(maxDepth, s) == Create(v, Skip(s, 1));
      assert Choose(maxDepth, t) == Create(v, Skip(t, 1));
    } else {
      assert Choose(maxDepth, s) == Create(v, Skip(s, 1));
      assert Choose(maxDepth, t) == Create(v, Skip(t, 1));
    }
  }

  /** The subtrees `populate` builds are a function of exactly the draws it
      consumes: a stream that agrees on those positions builds the same
      subtrees and stops at the same position. With the seed fixing the
      stream, the same seed gives the same tree. */
  lemma {:induction false} PopulateReadsOnlyItsDraws(arity: nat, maxDepth: int, s: Stream, t: Stream)
    requires IntsInRange(s) && IntsInRange(t)
    requires s.next == t.next
    requires Agree(s, t, s.next, Populate(arity, maxDepth, s).rest.next)
    ensures Populate(arity, maxDepth, t).ops == Populate(arity, maxDepth, s).ops
    ensures Populate(arity, maxDepth, t).rest.next == Populate(arity, maxDepth, s).rest.next
    decreases if maxDepth > 0 then maxDepth else 0, arity
  {
    if arity > 0 {
      var c := Choose(maxDepth, s);
      var kids := Populate(Arity(c.node.variant), maxDepth - 1, c.rest);
      var later := Populate(arity - 1, maxDepth, kids.rest);
      PopulateFirst(arity, maxDepth, s);
      var end := later.rest.next;
      AgreeNarrow(s, t, s.next, end, s, t, s.next, c.rest.next);
      ChooseReadsOnlyItsDraws(maxDepth, s, t);
      var c' := Choose(maxDepth, t);
      AgreeNarrow(s, t, s.next, end, c.rest, c'.rest, c.rest.next, kids.rest.next);
      PopulateReadsOnlyItsDraws(Arity(c.node.variant), maxDepth - 1, c.rest, c'.rest);
      var kids' := Populate(Arity(c.node.variant), maxDepth - 1, c'.rest);
      AgreeNarrow(s, t, s.next, end, kids.rest, kids'.rest, kids.rest.next, end);
      PopulateReadsOnlyItsDraws(arity - 1, maxDepth, kids.rest, kids'.rest);
      PopulateFirst(arity, maxDepth, t);
    }
  }
}

=== FILE: curves.dfy ===
/** The per-channel scalar curves of the `Tent` and `Well` operations. */
module Curves {

  function Abs(v: real): (r: real)
    ensures r >= 0.0 && (r == v || r == -v)
  {
    if v < 0.0 then -v else v
  }

  /** `pow(b, n)` for a natural exponent, which is all the program uses. */
  function Pow(b: real, n: nat): real {
    if n == 0 then 1.0 else b * Pow(b, n - 1)
  }

  /** `tent(v) = 1 - 2|v|`. */
  function Tent(v: real): real {
    1.0 - 2.0 * Abs(v)
  }

  /** The base `1 - 2/(1 + v*v)` that `well` raises to the eighth power. */
  function WellBase(v: real): (u: real)
    ensures -1.0 <= u < 1.0
  {
    WellDenominator(v);
    1.0 - 2.0 / (1.0 + v * v)
  }

  /** `well(v) = (1 - 2/(1 + v*v))^8`. */
  function Well(v: real): real {
    Pow(WellBase(v), 8)
  }

  /** The denominator of `well` is at least 1, so it is never zero. */
  lemma WellDenominator(v: real)
    ensures 1.0 + v * v >= 1.0
  {
    if v < 0.0 {
      assert v * v == (-v) * (-v);
    }
  }

  /** The tent never exceeds 1, and it is zero exactly at plus and minus one half. */
  lemma TentShape(v: real)
    ensures Tent(v) <= 1.0
    ensures Tent(v) == 0.0 <==> (v == 0.5 || v == -0.5)
    ensures Tent(-v) == Tent(v)
  {
  }

  /** A power of a value in [-1, 1] stays in [-1, 1]. */
  lemma {:induction false} PowUnit(b: real, n: nat)
    requires -1.0 <= b <= 1.0
    ensures -1.0 <= Pow(b, n) <= 1.0
  {
    if n > 0 {
      PowUnit(b, n - 1);
      var p := Pow(b, n - 1);
      assert Pow(b, n) == b * p;
      if b >= 0.0 {
        assert b * p <= b * 1.0 && b * p >= b * -1.0;
      } else {
        assert b * p >= b * 1.0 && b * p <= b * -1.0;
      }
    }
  }

  /** A power of a value strictly inside (-1, 1), with a positive exponent,
      stays strictly inside. */
  lemma {:induction false} PowStrict(b: real, n: nat)
    requires -1.0 < b < 1.0
    requires n >= 1
    ensures -1.0 < Pow(b, n) < 1.0
  {
    if n == 1 {
      assert Pow(b, 1) == b * Pow(b, 0);
    } else {
      PowStrict(b, n - 1);
      var p := Pow(b, n - 1);
      assert Abs(b * p) == Abs(b) * Abs(p) by {
        if b < 0.0 && p < 0.0 { assert b * p == (-b) * (-p); }
        else if b < 0.0 { assert -(b * p) == (-b) * p; }
        else if p < 0.0 { assert -(b * p) == b * (-p); }
      }
      assert Abs(b) * Abs(p) < 1.0 by {
        assert Abs(b) * Abs(p) <= Abs(b) * 1.0;
      }
    }
  }

  /** An even power is never negative. */
  lemma {:induction false} PowEven(b: real, k: nat)
    ensures Pow(b, 2 * k) == Pow(b * b, k)
    ensures Pow(b, 2 * k) >= 0.0
  {
    if k > 0 {
      PowEven(b, k - 1);
      calc {
        Pow(b, 2 * k);
        b * (b * Pow(b, 2 * (k - 1)));
        (b * b) * Pow(b * b, k - 1);
        Pow(b * b, k);
      }
      assert b * b >= 0.0 by {
        if b < 0.0 { assert b * b == (-b) * (-b); }
      }
      var p := Pow(b * b, k - 1);
      assert (b * b) * p >= 0.0;
    }
  }

  /** The square of a non-zero number is positive, so the denominator of
      `well` is then above 1. */
  lemma SquarePositive(v: real)
    requires v != 0.0
    ensures 1.0 + v * v > 1.0
  {
    if v < 0.0 {
      var w := -v;
      assert w * w > 0.0;
      assert v * v == w * w;
    } else {
      assert v * v > 0.0 * v;
    }
  }

  /** Two divided by a number above 1 lies strictly between 0 and 2. It is
      stated for all such numbers so that it applies to `2 / (1 + v*v)`
      without naming the denominator. */
  lemma TwoOver()
    ensures forall d: real {:trigger 2.0 / d} :: d > 1.0 ==> 0.0 < 2.0 / d < 2.0
  {
    forall d: real {:trigger 2.0 / d} | d > 1.0
      ensures 0.0 < 2.0 / d < 2.0
    {
      var q := 2.0 / d;
      assert q * d == 2.0;
    }
  }

  /** `well` maps every input into [0, 1]. */
  lemma WellRange(v: real)
    ensures 0.0 <= Well(v) <= 1.0
  {
    PowUnit(WellBase(v), 8);
    PowEven(WellBase(v), 4);
  }

  /** `well(0) = (1 - 2)^8 = 1`, and 0 is the only input that reaches 1. */
  lemma WellPeak(v: real)
    ensures Well(0.0) == 1.0
    ensures Well(v) == 1.0 <==> v == 0.0
  {
    assert WellBase(0.0) == -1.0;
    PowEven(-1.0, 4);
    assert Pow(1.0, 4) == 1.0 by {
      assert Pow(1.0, 0) == 1.0;
    }
    if v != 0.0 {
      SquarePositive(v);
      TwoOver();
      PowStrict(WellBase(v), 8);
    }
  }
}

=== FILE: eval_laws.dfy ===
/** Each operation's `eval` rule for arbitrary inputs, together with laws
    such as commutation, involution and independence from input 2. */
module EvalLaws {
  import opened Vectors
  import opened Operations
  import Curves

  /** `Sum` adds channel by channel, so its inputs can be swapped. */
  lemma SumCommutes(a: Op, b: Op, x: real, y: real, m: FloatPrims)
    requires WellFormed(a) && WellFormed(b)
    ensures Eval(Op(Sum, [], [a, b]), x, y, m) == Eval(Op(Sum, [], [b, a]), x, y, m)
    ensures Eval(Op(Sum, [], [a, b]), x, y, m) == Add(Eval(a, x, y, m), Eval(b, x, y, m))
  {
  }

  /** `Product` multiplies channel by channel, so its inputs can be swapped. */
  lemma ProductCommutes(a: Op, b: Op, x: real, y: real, m: FloatPrims)
    requires WellFormed(a) && WellFormed(b)
    ensures Eval(Op(Product, [], [a, b]), x, y, m) == Eval(Op(Product, [], [b, a]), x, y, m)
    ensures Eval(Op(Product, [], [a, b]), x, y, m) == Mul(Eval(a, x, y, m), Eval(b, x, y, m))
  {
  }

  /** `Mod` applies `fmod` channel by channel with input 0 as dividend and
      input 1 as divisor, so swapping its inputs swaps the operands; each
      output channel depends only on the same channel of the two inputs. */
  lemma ModChannels(a: Op, b: Op, a2: Op, b2: Op, x: real, y: real, m: FloatPrims, k: nat)
    requires WellFormed(a) && WellFormed(b) && WellFormed(a2) && WellFormed(b2)
    requires k < 3
    ensures var u := Eval(a, x, y, m); var v := Eval(b, x, y, m);
      Eval(Op(Mod, [], [a, b]), x, y, m) == Vec3(m.fmod(u.r, v.r), m.fmod(u.g, v.g), m.fmod(u.b, v.b))
    ensures var u := Eval(a, x, y, m); var v := Eval(b, x, y, m);
      Eval(Op(Mod, [], [b, a]), x, y, m) == Vec3(m.fmod(v.r, u.r), m.fmod(v.g, u.g), m.fmod(v.b, u.b))
    ensures Eval(a2, x, y, m).At(k) == Eval(a, x, y, m).At(k) && Eval(b2, x, y, m).At(k) == Eval(b, x, y, m).At(k)
      ==> Eval(Op(Mod, [], [a2, b2]), x, y, m).At(k) == Eval(Op(Mod, [], [a, b]), x, y, m).At(k)
  {
  }

  /** Children evaluating to (1,1,1) and (2,2,2) sum to (3,3,3). */
  lemma SumExample(a: Op, b: Op, x: real, y: real, m: FloatPrims)
    requires WellFormed(a) && WellFormed(b)
    requires Eval(a, x, y, m) == Splat(1.0) && Eval(b, x, y, m) == Splat(2.0)
    ensures Eval(Op(Sum, [], [a, b]), x, y, m) == Splat(3.0)
  {
  }

  /** `Inverse` is `(1,1,1) - v`: applied twice it gives back its input, and
      added to its input it gives white. */
  lemma InverseLaws(a: Op, x: real, y: real, m: FloatPrims)
    requires WellFormed(a)
    ensures Eval(Op(Inverse, [], [Op(Inverse, [], [a])]), x, y, m) == Eval(a, x, y, m)
    ensures Eval(Op(Sum, [], [a, Op(Inverse, [], [a])]), x, y, m) == Splat(1.0)
  {
  }

  /** `ColorMix` takes red from input 0, green from input 1 and blue from
      input 2; mixing one input with itself gives that input back. */
  lemma ColorMixChannels(a: Op, b: Op, c: Op, x: real, y: real, m: FloatPrims)
    requires WellFormed(a) && WellFormed(b) && WellFormed(c)
    ensures Eval(Op(ColorMix, [], [a, b, c]), x, y, m)
         == Vec3(Eval(a, x, y, m).r, Eval(b, x, y, m).g, Eval(c, x, y, m).b)
    ensures Eval(Op(ColorMix, [], [a, a, a]), x, y, m) == Eval(a, x, y, m)
  {
  }

  /** Inputs evaluating to pure red, green and blue mix to white. */
  lemma ColorMixExample(a: Op, b: Op, c: Op, x: real, y: real, m: FloatPrims)
    requires WellFormed(a) && WellFormed(b) && WellFormed(c)
    requires Eval(a, x, y, m) == Vec3(1.0, 0.0, 0.0)
    requires Eval(b, x, y, m) == Vec3(0.0, 1.0, 0.0)
    requires Eval(c, x, y, m) == Vec3(0.0, 0.0, 1.0)
    ensures Eval(Op(ColorMix, [], [a, b, c]), x, y, m) == Splat(1.0)
  {
  }

  /** `PerChannelMask` with threshold `t`: on each channel, input 1's value
      when the mask channel is strictly above `t`, input 2's otherwise. */
  lemma PerChannelMaskSelects(t: real, mask: Op, a: Op, b: Op, x: real, y: real, m: FloatPrims, k: nat)
    requires WellFormed(mask) && WellFormed(a) && WellFormed(b)
    requires k < 3
    ensures var v := Eval(Op(PerChannelMask, [t], [mask, a, b]), x, y, m);
      && (Eval(mask, x, y, m).At(k) > t ==> v.At(k) == Eval(a, x, y, m).At(k))
      && (Eval(mask, x, y, m).At(k) <= t ==> v.At(k) == Eval(b, x, y, m).At(k))
  {
  }

  /** A mask above the threshold on every channel selects input 1 whole; one
      at or below it on every channel selects input 2 whole; equal inputs
      make the mask irrelevant. */
  lemma PerChannelMaskWhole(t: real, mask: Op, a: Op, b: Op, x: real, y: real, m: FloatPrims)
    requires WellFormed(mask) && WellFormed(a) && WellFormed(b)
    ensures (forall k :: 0 <= k < 3 ==> Eval(mask, x, y, m).At(k) > t)
      ==> Eval(Op(PerChannelMask, [t], [mask, a, b]), x, y, m) == Eval(a, x, y, m)
    ensures (forall k :: 0 <= k < 3 ==> Eval(mask, x, y, m).At(k) <= t)
      ==> Eval(Op(PerChannelMask, [t], [mask, a, b]), x, y, m) == Eval(b, x, y, m)
    ensures Eval(Op(PerChannelMask, [t], [mask, a, a]), x, y, m) == Eval(a, x, y, m)
  {
    var mv := Eval(mask, x, y, m);
    if forall k :: 0 <= k < 3 ==> mv.At(k) > t {
      assert mv.At(0) > t && mv.At(1) > t && mv.At(2) > t;
    }
    if forall k :: 0 <= k < 3 ==> mv.At(k) <= t {
      assert mv.At(0) <= t && mv.At(1) <= t && mv.At(2) <= t;
    }
  }

  /** `BinaryMask` reads input 1 on both sides of its test, so it evaluates
      to input 1 whatever the mask, the threshold and input 2 are. */
  lemma BinaryMaskIsInputOne(t: real, mask: Op, a: Op, b: Op, x: real, y: real, m: FloatPrims)
    requires WellFormed(mask) && WellFormed(a) && WellFormed(b)
    ensures Eval(Op(BinaryMask, [t], [mask, a, b]), x, y, m) == Eval(a, x, y, m)
  {
  }

  /** `SmoothMix` blends input 1 with itself, `w*a + (1-w)*a = a` over the
      reals, so it evaluates to input 1 whatever the weight and input 2 are. */
  lemma SmoothMixIsInputOne(mask: Op, a: Op, b: Op, x: real, y: real, m: FloatPrims)
    requires WellFormed(mask) && WellFormed(a) && WellFormed(b)
    ensures Eval(Op(SmoothMix, [], [mask, a, b]), x, y, m) == Eval(a, x, y, m)
  {
    var w := m.length(Eval(mask, x, y, m));
    var v := Eval(a, x, y, m);
    assert w * v.r + (1.0 - w) * v.r == v.r;
    assert w * v.g + (1.0 - w) * v.g == v.g;
    assert w * v.b + (1.0 - w) * v.b == v.b;
  }

  /** `Tent` never produces a channel above 1, and sends (0.5,0.5,0.5) to black. */
  lemma TentNode(a: Op, x: real, y: real, m: FloatPrims)
    requires WellFormed(a)
    ensures var v := Eval(Op(Tent, [], [a]), x, y, m);
      v.r <= 1.0 && v.g <= 1.0 && v.b <= 1.0
    ensures Eval(a, x, y, m) == Splat(0.5) ==> Eval(Op(Tent, [], [a]), x, y, m) == Splat(0.0)
  {
    var u := Eval(a, x, y, m);
    Curves.TentShape(u.r);
    Curves.TentShape(u.g);
    Curves.TentShape(u.b);
  }

  /** `Well` keeps every channel in [0, 1], and sends black to white. */
  lemma WellNode(a: Op, x: real, y: real, m: FloatPrims)
    requires WellFormed(a)
    ensures var v := Eval(Op(Well, [], [a]), x, y, m);
      && 0.0 <= v.r <= 1.0 && 0.0 <= v.g <= 1.0 && 0.0 <= v.b <= 1.0
    ensures Eval(a, x, y, m) == Splat(0.0) ==> Eval(Op(Well, [], [a]), x, y, m) == Splat(1.0)
  {
    var u := Eval(a, x, y, m);
    Curves.WellRange(u.r);
    Curves.WellRange(u.g);
    Curves.WellRange(u.b);
    Curves.WellPeak(0.0);
  }

  /** The leaves: a Constant broadcasts its value, VarX and VarY broadcast
      the coordinate, a Circle broadcasts the distance to its centre. */
  lemma LeafValues(c: real, cx: real, cy: real, x: real, y: real, m: FloatPrims)
    ensures Eval(Op(Constant, [c], []), x, y, m) == Splat(c)
    ensures Eval(Op(VarX, [], []), x, y, m) == Splat(x)
    ensures Eval(Op(VarY, [], []), x, y, m) == Splat(y)
    ensures Eval(Op(Circle, [cx, cy], []), x, y, m) == Splat(m.hypot(x - cx, y - cy))
  {
  }
}

=== FILE: operations.dfy ===
/** The closed set of operations, their arities, the two selection tables,
    and the recursive evaluator (main.cpp, classes `Operation` through `Tent`). */
module Operations {
  import opened Vectors
  import Curves

  /** One constructor per subclass of `Operation`. */
  datatype Variant =
    | Sum | Product | Mod
    | Constant | VarX | VarY | Circle
    | Inverse | PerChannelMask | ColorMix | BinaryMask | SmoothMix
    | Well | Tent

  /** `getArity()`: how many inputs the variant reads. */
  function Arity(v: Variant): nat {
    match v
    case Constant | VarX | VarY | Circle => 0
    case Inverse | Well | Tent => 1
    case Sum | Product | Mod => 2
    case PerChannelMask | ColorMix | BinaryMask | SmoothMix => 3
  }

  /** How many `rand()` draws the variant's constructor stores in `constants`:
      the value of a Constant, the centre of a Circle, the threshold of a mask. */
  function ConstantCount(v: Variant): nat {
    match v
    case Constant | PerChannelMask | BinaryMask => 1
    case Circle => 2
    case _ => 0
  }

  /** A node: its class, the constants its constructor drew, and its inputs,
      each owned by this node alone. */
  datatype Op = Op(variant: Variant, constants: seq<real>, inputs: seq<Op>)

  /** Every node of the tree carries exactly as many inputs as its arity and
      exactly as many constants as its constructor draws. */
  predicate WellFormed(o: Op)
    decreases o
  {
    && |o.inputs| == Arity(o.variant)
    && |o.constants| == ConstantCount(o.variant)
    && forall i :: 0 <= i < |o.inputs| ==> WellFormed(o.inputs[i])
  }

  /** The table `internalOps`, in declaration order. */
  const InternalOps: seq<Variant> :=
    [Sum, PerChannelMask, ColorMix, BinaryMask, SmoothMix, Well, Tent, Product, Inverse, Mod]

  /** The table `leaves`, in declaration order. */
  const Leaves: seq<Variant> := [Constant, VarX, VarY, Circle]

  /** The floating-point primitives whose behaviour this model does not
      fix: `fmod` and `hypot` from the C maths library, and `vec3::length`. */
  datatype FloatPrims = FloatPrims(fmod: (real, real) -> real, hypot: (real, real) -> real, length: Vec3 -> real)

  /** `eval(x, y)` of a node, with its inputs evaluated recursively. */
  function Eval(o: Op, x: real, y: real, m: FloatPrims): Vec3
    requires WellFormed(o)
    decreases o
  {
    match o.variant
    case Sum =>
      Add(Eval(o.inputs[0], x, y, m), Eval(o.inputs[1], x, y, m))
    case Product =>
      Mul(Eval(o.inputs[0], x, y, m), Eval(o.inputs[1], x, y, m))
    case Mod =>
      var a := Eval(o.inputs[0], x, y, m);
      var b := Eval(o.inputs[1], x, y, m);
      Vec3(m.fmod(a.r, b.r), m.fmod(a.g, b.g), m.fmod(a.b, b.b))
    case Constant =>
      Splat(o.constants[0])
    case VarX =>
      Splat(x)
    case VarY =>
      Splat(y)
    case Circle =>
      Splat(m.hypot(x - o.constants[0], y - o.constants[1]))
    case Inverse =>
      Sub(Splat(1.0), Eval(o.inputs[0], x, y, m))
    case PerChannelMask =>
      var mask := Eval(o.inputs[0], x, y, m);
      var a := Eval(o.inputs[1], x, y, m);
      var b := Eval(o.inputs[2], x, y, m);
      var t := o.constants[0];
      Vec3(if mask.r > t then a.r else b.r,
           if mask.g > t then a.g else b.g,
           if mask.b > t then a.b else b.b)
    case ColorMix =>
      Vec3(Eval(o.inputs[0], x, y, m).r, Eval(o.inputs[1], x, y, m).g, Eval(o.inputs[2], x, y, m).b)
    case BinaryMask =>
      // Both branches read input 1; input 2 is never evaluated.
      var mask := Eval(o.inputs[0], x, y, m);
      var a := Eval(o.inputs[1], x, y, m);
      var b := Eval(o.inputs[1], x, y, m);
      if m.length(mask) > o.constants[0] then a else b
    case SmoothMix =>
      // Both blend operands read input 1; input 2 is never evaluated.
      var weight := m.length(Eval(o.inputs[0], x, y, m));
      var a := Eval(o.inputs[1], x, y, m);
      var b := Eval(o.inputs[1], x, y, m);
      Add(Scale(weight, a), Scale(1.0 - weight, b))
    case Well =>
      Map(Curves.Well, Eval(o.inputs[0], x, y, m))
    case Tent =>
      Map(Curves.Tent, Eval(o.inputs[0], x, y, m))
  }

  /** The two tables split the classes by arity: `internalOps` holds the ten
      classes with inputs and `leaves` the four without, each exactly once,
      so `randOp` can only yield a node with inputs and `randLeaf` only one
      without. */
  lemma TablesSplitByArity()
    ensures |InternalOps| == 10 && |Leaves| == 4
    ensures forall v: Variant :: v in InternalOps <==> Arity(v) >= 1
    ensures forall v: Variant :: v in Leaves <==> Arity(v) == 0
    ensures forall i, j :: 0 <= i < j < |InternalOps| ==> InternalOps[i] != InternalOps[j]
    ensures forall i, j :: 0 <= i < j < |Leaves| ==> Leaves[i] != Leaves[j]
  {
  }
}

=== FILE: raster.dfy ===
/** `setColor` (main.cpp): where a pixel's three channels go in the flat
    RGB buffer, and how each channel is quantised. The buffer holds doubles;
    every value stored is an integer below 255 in magnitude, which a double
    holds exactly, so the buffer is modelled as a sequence of integers. */
module Raster {
  import opened Vectors

  /** C++ `(int) v`: conversion of a double to int, truncating toward zero. */
  function Trunc(v: real): (n: int)
    ensures v >= 0.0 ==> n >= 0 && n as real <= v < n as real + 1.0
    ensures v < 0.0 ==> n <= 0 && n as real - 1.0 < v <= n as real
  {
    if v >= 0.0 then v.Floor else -((-v).Floor)
  }

  /** C++ `a / b` for a positive divisor: the quotient truncated toward zero. */
  function CQuot(a: int, b: int): int
    requires b > 0
  {
    if a >= 0 then a / b else -((-a) / b)
  }

  /** C++ `a % b` for a positive divisor: the remainder left by the truncated
      quotient, which keeps the sign of `a` (unlike Dafny's `%`, whose
      remainder is never negative). */
  function CRem(a: int, b: int): (r: int)
    requires b > 0
    ensures a == CQuot(a, b) * b + r
    ensures a >= 0 ==> 0 <= r < b
    ensures a < 0 ==> -b < r <= 0
  {
    if a >= 0 then a % b else -((-a) % b)
  }

  /** One channel of `setColor`: `(int) (c * 255) % 255`. */
  function Quantize(c: real): (q: int)
    ensures c >= 0.0 ==> 0 <= q <= 254
    ensures c < 0.0 ==> -255 < q <= 0
  {
    CRem(Trunc(c * 255.0), 255)
  }

  /** `index = x + (y * xRes)`: the pixel's position in row-major order. */
  function PixelIndex(x: int, y: int, xRes: int): int {
    x + y * xRes
  }

  /** `setColor(values, x, y, xRes, color)`: writes the quantised red, green
      and blue channels to slots `3 * index`, `3 * index + 1` and
      `3 * index + 2` and leaves every other slot alone. Writing outside the
      buffer is undefined in C++, so the three slots must lie inside it. */
  function SetColor(values: seq<int>, x: int, y: int, xRes: int, color: Vec3): (r: seq<int>)
    requires 0 <= 3 * PixelIndex(x, y, xRes) && 3 * PixelIndex(x, y, xRes) + 2 < |values|
    ensures |r| == |values|
    ensures forall k :: 0 <= k < 3 ==> r[3 * PixelIndex(x, y, xRes) + k] == Quantize(color.At(k))
    ensures forall j :: 0 <= j < |r| && j / 3 != PixelIndex(x, y, xRes) ==> r[j] == values[j]
  {
    var i := 3 * PixelIndex(x, y, xRes);
    values[i := Quantize(color.r)][i + 1 := Quantize(color.g)][i + 2 := Quantize(color.b)]
  }

  /** A pixel inside the `xRes` by `yRes` image has its three slots inside a
      buffer of `3 * xRes * yRes` values. */
  lemma PixelInBuffer(x: int, y: int, xRes: int, yRes: int)
    requires 0 <= x < xRes && 0 <= y < yRes
    ensures 0 <= PixelIndex(x, y, xRes) < xRes * yRes
    ensures 0 <= 3 * PixelIndex(x, y, xRes) && 3 * PixelIndex(x, y, xRes) + 2 < 3 * xRes * yRes
  {
    assert y * xRes >= 0;
    assert y * xRes <= (yRes - 1) * xRes;
    assert (yRes - 1) * xRes == yRes * xRes - xRes;
  }

  /** Within one row width, distinct pixels have distinct indices, so their
      slot triples are disjoint; equal indices mean the same pixel. */
  lemma PixelIndexInjective(x: int, y: int, x': int, y': int, xRes: int)
    requires 0 <= x < xRes && 0 <= y
    requires 0 <= x' < xRes && 0 <= y'
    ensures PixelIndex(x, y, xRes) == PixelIndex(x', y', xRes) <==> x == x' && y == y'
  {
    if y < y' {
      assert y' * xRes >= (y + 1) * xRes;
    } else if y' < y {
      assert y * xRes >= (y' + 1) * xRes;
    }
  }

  /** Colouring two different pixels gives the same buffer in either order:
      each call touches only its own pixel's slots. */
  lemma SetColorCommutes(values: seq<int>, x: int, y: int, c: Vec3, x': int, y': int, c': Vec3, xRes: int)
    requires 0 <= x < xRes && 0 <= y && 0 <= x' < xRes && 0 <= y'
    requires (x, y) != (x', y')
    requires 3 * PixelIndex(x, y, xRes) + 2 < |values|
    requires 3 * PixelIndex(x', y', xRes) + 2 < |values|
    ensures SetColor(SetColor(values, x, y, xRes, c), x', y', xRes, c')
         == SetColor(SetColor(values, x', y', xRes, c'), x, y, xRes, c)
  {
    PixelIndexInjective(x, y, x', y', xRes);
  }

  /** Quantisation wraps instead of clamping: 1.0 and 1.003 both land on 0,
      never on 255. */
  lemma QuantizeWraps()
    ensures Quantize(1.0) == 0
    ensures Quantize(1.003) == 0
    ensures Quantize(0.5) == 127
  {
    assert Trunc(1.003 * 255.0) == 255;
    assert Trunc(0.5 * 255.0) == 127;
  }

  /** Quantisation is odd: truncation and the C remainder both commute with
      negation. */
  lemma QuantizeOdd(c: real)
    ensures Quantize(-c) == -Quantize(c)
  {
    assert -c * 255.0 == -(c * 255.0);
  }

  /** For non-negative channels, the C conversion agrees with
      `floor(c * 255) mod 255`; for negative ones it need not. */
  lemma QuantizeVersusFloorMod(c: real)
    ensures c >= 0.0 ==> Quantize(c) == (c * 255.0).Floor % 255
    ensures Quantize(-0.001) == 0 && (-0.001 * 255.0).Floor % 255 == 254
  {
    assert Trunc(-0.001 * 255.0) == 0;
    assert (-0.001 * 255.0).Floor == -1;
  }
}

=== FILE: rng.dfy ===
/** The random source, made explicit. The Mersenne Twister behind the
    program's `twister` is not part of this model: it is replaced by an
    abstract, endless stream of draws. Each call of `randInt(k)` or `rand()`
    consumes one position of the stream; the value a call returns at
    position `p` is `intDraw(p, k)` or `realDraw(p)`. Building is then a
    pure function of the stream, so the same seed gives the same tree. */
module Rng {

  datatype Stream = Stream(next: nat, intDraw: (nat, nat) -> int, realDraw: nat -> real)

  /** The generator's promise for `randInt(k)`: a value in [0, k]. */
  ghost predicate IntsInRange(s: Stream) {
    forall p: nat, k: nat :: 0 <= s.intDraw(p, k) <= k
  }

  /** The generator's promise for `rand()`: a value in [0, 1). */
  ghost predicate UnitReals(s: Stream) {
    forall p: nat :: 0.0 <= s.realDraw(p) < 1.0
  }

  /** The stream with its first `n` positions consumed. */
  function Skip(s: Stream, n: nat): (t: Stream)
    ensures t.next == s.next + n
    ensures t.intDraw == s.intDraw && t.realDraw == s.realDraw
  {
    s.(next := s.next + n)
  }

  /** `twister.randInt(k)`. */
  function RandInt(s: Stream, k: nat): (r: (int, Stream))
    ensures IntsInRange(s) ==> 0 <= r.0 <= k
    ensures r.1 == Skip(s, 1)
    ensures IntsInRange(r.1) == IntsInRange(s) && UnitReals(r.1) == UnitReals(s)
  {
    (s.intDraw(s.next, k), Skip(s, 1))
  }

  /** `twister.rand()`. */
  function Rand(s: Stream): (r: (real, Stream))
    ensures UnitReals(s) ==> 0.0 <= r.0 < 1.0
    ensures r.1 == Skip(s, 1)
    ensures IntsInRange(r.1) == IntsInRange(s) && UnitReals(r.1) == UnitReals(s)
  {
    (s.realDraw(s.next), Skip(s, 1))
  }

  /** `n` successive `rand()` calls, in call order. */
  function Rands(n: nat, s: Stream): (r: (seq<real>, Stream))
    ensures |r.0| == n
    ensures r.1 == Skip(s, n)
    ensures forall i :: 0 <= i < n ==> r.0[i] == s.realDraw(s.next + i)
    ensures UnitReals(s) ==> forall i :: 0 <= i < n ==> 0.0 <= r.0[i] < 1.0
  {
    if n == 0 then ([], s)
    else
      var (v, s1) := Rand(s);
      var (rest, s2) := Rands(n - 1, s1);
      ([v] + rest, s2)
  }
}

=== FILE: vectors.dfy ===
/** The colour value `vec3` of the program. Its header is not part of this
    model; its components are modelled as exact reals and its arithmetic
    operators as the usual component-wise ones. */
module Vectors {

  datatype Vec3 = Vec3(r: real, g: real, b: real) {

    /** Component access `v[i]` for channel 0 (red), 1 (green) or 2 (blue). */
    function At(i: nat): real
      requires i < 3
    {
      if i == 0 then r else if i == 1 then g else b
    }
  }

  /** `vec3(c, c, c)`: one scalar on all three channels. */
  function Splat(c: real): Vec3 {
    Vec3(c, c, c)
  }

  /** `u + v` */
  function Add(u: Vec3, v: Vec3): Vec3 {
    Vec3(u.r + v.r, u.g + v.g, u.b + v.b)
  }

  /** `u - v` */
  function Sub(u: Vec3, v: Vec3): Vec3 {
    Vec3(u.r - v.r, u.g - v.g, u.b - v.b)
  }

  /** `u * v`, the channel-by-channel product. */
  function Mul(u: Vec3, v: Vec3): Vec3 {
    Vec3(u.r * v.r, u.g * v.g, u.b * v.b)
  }

  /** `k * v`, a scalar times a vector. */
  function Scale(k: real, v: Vec3): Vec3 {
    Vec3(k * v.r, k * v.g, k * v.b)
  }

  /** Applies a scalar function to each channel. */
  function Map(f: real -> real, v: Vec3): Vec3 {
    Vec3(f(v.r), f(v.g), f(v.b))
  }
}
